=== FILE: README.md ===
# Gloss/Matte order optimisation — a Dafny model

This project models the solver of the colour-finish challenge. An instance has
`colorCount` colours, numbered `1..colorCount`. An order is a list of clients.
Each client is a list of `(index, finish)` preferences, read as a logical OR,
and the finish is Gloss (`G`) or Matte (`M`). The solver gives every colour
one finish so that each client gets at least one of its preferences, and it
leans towards Gloss.

The model is written as pure functions over immutable values:

- `colors.dfy` (module `Colors`) holds the `Color` value type. It covers the
  token constructor, `buildGloss`/`buildMatte`, `hasIndex`,
  `isGloss`/`isMatte`, `equals`, `hashCode` with explicit 32-bit wrap-around,
  and `toString`.
- `orders.dfy` (module `Orders`) holds the shared order vocabulary:
  - rows and orders;
  - the flattened entry stream;
  - the `frequency` counts;
  - the last-entry lookup that `expand` performs;
  - the first-match removal that `columnSatisfiedBy` performs.
- `reducer.dfy` (module `Reducer`) models `expand` and `columnSatisfiedBy`.
  The commit is `Commit`. It returns `None` where the source returns `false`,
  and in that case no order comes back, so nothing has changed. It returns
  `Some(reduced order)` where the source returns `true`. The lemmas describe
  what an accepted commit does.
- `heuristics.dfy` (module `Heuristics`) models `addOrphans`,
  `addClientEssential` and `addMostFrequentGloss`. Each heuristic returns the
  new order, the new solution and whether it added anything.
- `solver.dfy` (module `Solver`) models the `solve` loop (`Round`, `Reduce`),
  the final Gloss-filled assignment (`Assemble`), `isASolution` and `solve`.
- `wrappers.dfy` (module `Wrappers`) holds `Option` and `Result`.

Modelling decisions:

- **Immutable input.** `solve` clones its input before changing it. In the
  model every order is an immutable value, so the clone is implicit and the
  input can never change.
- **Index range.** Every colour index must lie in `1..colorCount`
  (`ValidOrder`). The source indexes arrays with `index - 1`. An
  out-of-range index throws `ArrayIndexOutOfBoundsException` there, and the
  model does not handle that case.
- **Duplicate indices in a row.** The model keeps the source's behaviour as
  written:
  - `expand` keeps the *last* entry of a row for each colour;
  - the column removal deletes the *first* entry of that colour;
  - `rowsToRemove`/`removeAll` compares rows with `List.equals`. Rows that are
    structurally equal get the same verdict, so `removeAll` acts as a filter
    on that verdict (`Prune`).

  Properties that hold only when every row mentions a colour at most once
  carry the precondition `NoDuplicates`.
- **Termination.** The loop terminates by the lexicographic measure
  (undecided indices in `1..colorCount`, total entries). `addOrphans` and
  `addClientEssential` grow the set of decided indices. An accepted
  `addMostFrequentGloss` commit removes at least one entry. Without duplicate
  indices it also removes at least one client.

Behaviour of the code that the model keeps:

- **Tied candidates.** When the most frequent Gloss colour's commit is
  rejected, `addMostFrequentGloss` goes on to the next colour with the same
  count, in ascending order. Only when every tied colour is rejected does it
  report failure, which stops the loop.
- **When the loop continues.** The loop continues whenever a heuristic
  *added something to the solution*, even if its commits were rejected.
  `addClientEssential` ignores the answers of its commits.
- **Essential commits can be rejected.** `addClientEssential` checks only the
  solution as it stood before the pass. So it can add both `(k, M)` and
  `(k, G)`. Its commits can then be rejected: `EssentialRejection` gives the
  exact situation. The last committed finish wins in the assembled result,
  and the final validation decides.
- **Return value of `columnSatisfiedBy`.** It returns `true` whenever no
  one-entry client conflicts with the commit, even if the commit satisfies no
  client (`CommitUnmentioned`). The method's doc comment says otherwise.
- **An empty result is not a proof of unsatisfiability.** The doc comment of
  `solve` says it returns an empty list when no solution exists. The greedy
  loop can also stop with an assignment that fails validation while another
  assignment would succeed (`GreedyMissesSolution`).

## Model

| member | source | states |
|---|---|---|
| Colors.FinishToken | main/java/Color.java:53 | The token of a finish is one character, and it is `"G"` exactly for Gloss and `"M"` exactly for Matte. |
| Colors.ParseFinish | main/java/Color.java:8-14 | The finish token is accepted exactly when it is `"M"` or `"G"`. An accepted token renders back to itself. Any other token fails with `IllegalArgument("<token> is not a valid input")`. |
| Colors.ParseFinishInvertsToken | main/java/Color.java:8-14 | Parsing the rendered name of a finish gives that finish back. |
| Colors.FromTokens | main/java/Color.java:6-16 | The token constructor succeeds exactly on the two finish tokens. The colour it builds keeps the given index and has the named finish. Otherwise it fails with the exception message. |
| Colors.BuildGloss | main/java/Color.java:23-25 | The colour has the given index and is Gloss. |
| Colors.BuildMatte | main/java/Color.java:27-29 | The colour has the given index and is Matte. |
| Colors.HasIndex | main/java/Color.java:31-33 | Holds exactly when the colour is `(index, its own finish)`. |
| Colors.GlossXorMatte | main/java/Color.java:35-67 | `isMatte` (lines 35-37) and `isGloss` (lines 65-67) exclude each other and together cover every colour. |
| Colors.Equals | main/java/Color.java:39-48 | `equals` holds exactly when the other object is present and is structurally the same colour, so `null` is never equal. |
| Colors.EqualsIsReflexiveAndSymmetric | main/java/Color.java:39-48 | `equals` is reflexive and symmetric. |
| Colors.Wrap32 | main/java/Color.java:61 | The result is a 32-bit `int` congruent to the exact value modulo 2^32, which is Java's overflow. |
| Colors.HashCode | main/java/Color.java:58-63 | The hash is a 32-bit int. It is congruent modulo 2^32 to `31 * index + hash(type)`. |
| Colors.HashCodeAgreesWithEquals | main/java/Color.java:58-63 | Colours that are `equals` have the same hash. |
| Colors.DecimalString | main/java/Color.java:52 | The decimal text of the index is non-empty and reads back as the same integer, negative values included. |
| Colors.ToString | main/java/Color.java:51-55 | `"{" + index + type + "}"` can be read back into the same index and finish. |
| Colors.ToStringInjective | main/java/Color.java:51-55 | Different colours render to different strings. |
| Orders.FirstWithIndex | main/java/OrderOptimization.java:152 | `findFirst` on the entry stream filtered by index returns `None` exactly when no entry has that index. Otherwise it returns an entry with that index, and no earlier entry has that index. |
| Orders.SoleEntry | main/java/OrderOptimization.java:150-155 | When the frequency of an index is 1, every entry with that index is the one that `findFirst` returns. |
| Orders.LastEntry | main/java/OrderOptimization.java:251-253 | The cell that `expand` fills for a colour is empty exactly when the row does not mention the colour. Otherwise it holds an entry of the row with that index, and no later entry has that index. |
| Orders.RemoveFirst | main/java/OrderOptimization.java:231-236 | A row that does not mention the index is left unchanged. |
| Orders.RemoveFirstAt | main/java/OrderOptimization.java:231-236 | When the index occurs, exactly its first occurrence is removed, and the other entries stay in order. |
| Reducer.ExpandRow | main/java/OrderOptimization.java:249-254 | One row of the grid has `colorCount` cells. Cell `j` is the row's last entry with index `j + 1`, or empty. |
| Reducer.Expand | main/java/OrderOptimization.java:246-257 | The grid has one row per client and `colorCount` columns. Each cell is the last entry of its client for that colour. |
| Reducer.ConflictFrom | main/java/OrderOptimization.java:210-224 | The scan over the grid from client `i` on finds a conflict exactly when some later one-entry client holds the committed index with the other finish. |
| Reducer.Commit | main/java/OrderOptimization.java:204-244 | The commit is rejected exactly when some one-entry client holds the committed index with the other finish. Otherwise the result is the pruned order. |
| Reducer.Prune | main/java/OrderOptimization.java:226-238 | An accepted commit never increases the number of clients. |
| Reducer.PruneDropsSettled | main/java/OrderOptimization.java:217-228 | The result has exactly one client fewer for each client whose grid cell holds the committed colour. |
| Reducer.PruneKeepsUnsettled | main/java/OrderOptimization.java:226-238 | Every client not satisfied by the commit survives, with its first entry of the committed index removed. |
| Reducer.PruneOrigin | main/java/OrderOptimization.java:226-238 | Every surviving client is an unsatisfied input client with its first entry of the committed index removed. |
| Reducer.PruneAppend | main/java/OrderOptimization.java:226-238 | Pruning distributes over concatenation, so the surviving clients keep their relative order. |
| Reducer.SettlesIffContains | main/java/OrderOptimization.java:211-222 | Without duplicate indices, a client is removed exactly when it contains the committed colour. |
| Reducer.PruneClearsColumn | main/java/OrderOptimization.java:228-238 | Without duplicate indices, no surviving client mentions the committed index. |
| Reducer.PruneUnmentioned | main/java/OrderOptimization.java:210-238 | Committing an index that no client mentions leaves the order unchanged. |
| Reducer.CommitUnmentioned | main/java/OrderOptimization.java:204-244 | Committing an index that no client mentions is accepted (`true`) and is a no-op. |
| Reducer.PruneShrinks | main/java/OrderOptimization.java:226-238 | Entries never increase. They strictly decrease when some client mentions the committed index. |
| Reducer.PruneEntries | main/java/OrderOptimization.java:226-238 | Every entry left after a commit was an entry before it. |
| Reducer.PruneKeepsValid | main/java/OrderOptimization.java:226-238 | After a commit every index is still in `1..colorCount`. |
| Reducer.PruneKeepsDistinct | main/java/OrderOptimization.java:226-238 | A commit never creates a duplicate index in a client. |
| Reducer.PruneKeepsUnmentioned | main/java/OrderOptimization.java:226-238 | A commit never brings back an index the order no longer mentions. |
| Reducer.RemoveFirstLength | main/java/OrderOptimization.java:231-236 | Column removal shortens a client by one exactly when the client mentions the index. |
| Heuristics.CommitAll | main/java/OrderOptimization.java:160-163 | Committing a sequence while ignoring the answers keeps indices in range and keeps only entries that were there before. The number of clients and of entries never grows, and no duplicates are created. |
| Heuristics.OrphansFrom | main/java/OrderOptimization.java:140-158 | The scan returns Gloss colours with distinct indices. These are exactly the undecided indices that are unreferenced, or referenced once by a Gloss preference. |
| Heuristics.AddOrphans | main/java/OrderOptimization.java:139-166 | Only adds to the solution, and adds exactly the undecided orphan indices as Gloss. The new order is the result of committing the added colours in turn, and every one of those commits is accepted. Without duplicate indices, no client left mentions an orphan index. Progress is reported exactly when something was added, and then the decided set strictly grows. Without progress nothing changes. |
| Heuristics.OrphansProgress | main/java/OrderOptimization.java:139-166 | `addOrphans` returns `true` exactly when some undecided index in `1..colorCount` is an orphan. |
| Heuristics.OrphanCommitsAccepted | main/java/OrderOptimization.java:160-163 | Every commit that `addOrphans` issues is accepted. |
| Heuristics.AcceptedClearsColumns | main/java/OrderOptimization.java:160-163 | Without duplicate indices, after a sequence of accepted commits no client mentions any committed index. |
| Heuristics.EssentialsOf | main/java/OrderOptimization.java:176-184 | A colour is collected exactly when it is the sole preference of some one-entry client and its index is not decided in the solution as it stood before the pass. The colours come in client order, one per such client, so a repeated client gives a repeated colour. |
| Heuristics.EssentialsAppend | main/java/OrderOptimization.java:178-184 | The collection over two consecutive runs of clients is the collection over the first run followed by the one over the second, so the scan keeps client order. |
| Heuristics.EssentialsOfOne | main/java/OrderOptimization.java:179-182 | A single client contributes its sole preference exactly when it has one entry whose index is undecided, and nothing otherwise. |
| Heuristics.AddClientEssential | main/java/OrderOptimization.java:175-194 | Appends the sole preferences of the one-entry clients whose index was undecided before the pass, in client order (the sequence `EssentialsOf`), and nothing else. The new order is the result of committing those colours in turn, with the answers ignored. Progress is reported exactly when something was added, and then the decided set strictly grows. Without progress nothing changes, and the number of clients never grows. |
| Heuristics.EssentialsProgress | main/java/OrderOptimization.java:175-192 | `addClientEssential` returns `true` exactly when some one-entry client names an index the solution does not decide yet. |
| Heuristics.CommitKeepsPending | main/java/OrderOptimization.java:187-189 | Without duplicate indices, an essential preference whose one-entry client is present, or whose index has vanished, stays in that state through any commit. |
| Heuristics.EssentialRejection | main/java/OrderOptimization.java:185-189 | Without duplicate indices, a rejected essential commit means that at that moment both `[(k, f)]` and `[(k, other finish)]` are clients. |
| Heuristics.MaxGlossCount | main/java/OrderOptimization.java:110-113 | The result bounds the Gloss frequency of every index in range. It is attained by some index, or it is 0. |
| Heuristics.MostFrequentIsMax | main/java/OrderOptimization.java:113-118 | An index has maximal Gloss frequency exactly when its count equals the computed maximum. |
| Heuristics.GlossFrequencies | main/java/OrderOptimization.java:110-111 | The `frequency` array has `colorCount` slots, and slot `i` is the number of Gloss entries of index `i + 1` in the order. |
| Heuristics.FirstAccepted | main/java/OrderOptimization.java:116-126 | The ascending scan over the frequency table returns the lowest index whose slot equals the maximum and whose Gloss commit is accepted. Every lower index whose slot equals the maximum was rejected. `None` means every such index was rejected. |
| Heuristics.ScanFindsMostFrequent | main/java/OrderOptimization.java:110-127 | Read through the Gloss counts, the scan finds the lowest accepted index of maximal positive Gloss frequency, with every lower tied index rejected; it finds nothing exactly when every index of maximal positive frequency is rejected. |
| Heuristics.AddMostFrequentGloss | main/java/OrderOptimization.java:108-129 | On success it appends `(k, G)`, where `k` is the lowest accepted index of maximal positive Gloss frequency, and the order becomes the commit's result with strictly fewer entries. It fails exactly when every such index is rejected, and then nothing changes. |
| Heuristics.GlossCommitShrinks | main/java/OrderOptimization.java:117-124 | An accepted Gloss commit of a colour with positive Gloss frequency removes an entry. Without duplicate indices it removes a client. |
| Solver.Round | main/java/OrderOptimization.java:78-90 | The heuristics run in fixed priority. If some undecided index is an orphan, the iteration is exactly `addOrphans`. Otherwise, if some one-entry client names an undecided index, it is exactly `addClientEssential`. Otherwise it is exactly `addMostFrequentGloss`. One iteration only extends the solution. Its progress either strictly grows the decided set, or keeps it and strictly removes entries. It makes no progress exactly when all three heuristics are stuck, and then nothing changes. The number of clients never grows. |
| Solver.Reduce | main/java/OrderOptimization.java:76-91 | The loop terminates. Its final solution extends the start and its indices stay in range. The number of clients and of entries never grows. |
| Solver.ReduceEndsStalled | main/java/OrderOptimization.java:76-91 | The loop ends only at an empty order or when no heuristic can add anything. |
| Solver.RoundDrawsFromOrder | main/java/OrderOptimization.java:78-85 | A round keeps only entries it was given. It commits Gloss colours or preferences present in the order. |
| Solver.RoundKeepsDrawn | main/java/OrderOptimization.java:78-90 | One round keeps the remaining entries among the input's entries, and its commits Gloss colours or input preferences. |
| Solver.ReduceDrawsFromInput | main/java/OrderOptimization.java:76-91 | Every committed colour is Gloss or a preference of some input client. |
| Solver.Assemble | main/java/OrderOptimization.java:93-94 | Slot `i` holds the last committed colour of index `i + 1`, or `buildGloss(i + 1)` if that index was never committed. |
| Solver.Solve | main/java/OrderOptimization.java:65-100 | The result is empty or has length `colorCount`, and slot `i` holds index `i + 1`. A non-empty result satisfies every original client. Whenever the assignment assembled from the loop's commits satisfies every original client, exactly that assignment is returned, so the validation never discards a good one. |
| Solver.NoClientsAllGloss | main/java/OrderOptimization.java:76-96 | With no clients the loop does not run and the result is every colour in Gloss. |
| Solver.SingleMatteClient | main/java/OrderOptimization.java:65-100 | The instance with one colour and the one client `[(1, M)]` gives the assignment `[(1, M)]`: the client-essential pass commits it and validation accepts it. |
| Solver.GreedyMissesSolution | main/java/OrderOptimization.java:63-100 | The two-colour instance with the one client `[(1, M), (2, M)]` gives the empty result, although `[(1, M), (2, G)]` satisfies it. So an empty result does not mean, as the doc comment at line 63 says, that no solution exists. |
| Solver.SolveTakesLastCommit | main/java/OrderOptimization.java:93-96 | A non-empty result gives each colour its last committed finish, and Gloss for undecided colours. |
| Solver.IsASolution | main/java/OrderOptimization.java:284-286 | For a full assignment, the containment test gives the same answer as checking that every client has a preference equal to the slot of its index. |
| Solver.UnmentionedColourIsGloss | main/java/OrderOptimization.java:143-149 | A colour that no client mentions is Gloss in a non-empty result. |
| Solver.SingletonsClash | main/java/OrderOptimization.java:284-286 | No full assignment satisfies both `[(k, M)]` and `[(k, G)]`. |
| Solver.ContradictorySingletons | main/java/OrderOptimization.java:95-98 | If the input holds clients `[(k, M)]` and `[(k, G)]`, the result is empty ("No solution exists"). |
| Solver.OneColourBothFinishes | test/java/TestOrderOptimization.java:24 | The instance `1 / 1 M / 1 G` has an empty result. |
| Solver.EmptyClientUnsatisfiable | main/java/OrderOptimization.java:284-286 | A client with no preferences makes the result empty. |
| Solver.EmptyRowUnsatisfiable | main/java/OrderOptimization.java:284-286 | No assignment satisfies an order that holds a client with no preferences. |

## Left out

- `main`, `execute` and `convertInput` are left out. They are file I/O, timing, console output, `String.split`, `Integer.valueOf` and the joining of the output tokens. The model starts from a parsed order and returns the assignment as colours.
- Parsing the index in the token constructor (`Integer.valueOf`) is left out. `FromTokens` takes the index as an integer already.
- The value of `Type.hashCode()` is identity-based, so `HashCode` takes it as a parameter. The `type != null` branch is not modelled because a model colour always has a finish.
- Java `int` overflow of the colour index and of the `frequency` counters is not modelled. The counters would need more than 2^31 entries to wrap.
- Colors.Equals: the `getClass() != o.getClass()` branch is left out. It makes an object of another class never equal, but the argument here is an `Option<Color>`, so only a colour or `null` can be passed.
- Out-of-range indices are left out. The source throws `ArrayIndexOutOfBoundsException` for them, and the model requires every index to lie in `1..colorCount` instead.
- Minimal Matte count is not stated. The brute-force oracle in the tests compares Matte counts exhaustively, but only for 5 colours and 6 clients, each client with exactly one Matte preference. The greedy promises no optimum in general.
- Completeness is not stated, because it does not hold. `GreedyMissesSolution` gives an instance where the result is empty although an assignment exists. `Solve` does state that a satisfying assembled assignment is never thrown away.
- Whether an empty working order always yields a valid assignment is not proved. The code re-validates the assembled result against the original input.
- The test instances other than `1 / 1 M / 1 G` are not stated as lemmas, and neither is the printing-only test output.
- Heuristics.AddMostFrequentGloss: "at least one client is removed" is proved only without duplicate indices. With a duplicate index only an entry is guaranteed to go. An example is the client `[(c, G), (c, M)]` under a commit of `(c, G)`.
- Heuristics.EssentialRejection: proved only for orders whose clients mention each index at most once.

=== FILE: colors.dfy ===
/** The `Color` value type: a colour index paired with one of the two finishes. */
module Colors {
  import opened Wrappers

  /** `Color.Type`: Gloss or Matte. */
  datatype Finish = G | M

  datatype Color = Color(index: int, finish: Finish) {

    predicate IsGloss() {
      finish == G
    }

    predicate IsMatte() {
      finish == M
    }
  }

  /** The `IllegalArgumentException` the token constructor throws. */
  datatype ColorError = IllegalArgument(message: string)

  /** The name of an enum constant, as `Type.toString()` renders it. */
  function FinishToken(f: Finish): (s: string)
    ensures |s| == 1
    ensures s == "G" <==> f == G
    ensures s == "M" <==> f == M
  {
    match f
    case G => "G"
    case M => "M"
  }

  /** The finish half of the token constructor `Color(String, String)`. */
  function ParseFinish(token: string): (r: Result<Finish, ColorError>)
    ensures r.Success? <==> token == "M" || token == "G"
    ensures r.Success? ==> FinishToken(r.value) == token
    ensures r.Failure? ==> r.error == IllegalArgument(token + " is not a valid input")
  {
    if token == "M" then Success(M)
    else if token == "G" then Success(G)
    else Failure(IllegalArgument(token + " is not a valid input"))
  }

  lemma ParseFinishInvertsToken(f: Finish)
    ensures ParseFinish(FinishToken(f)) == Success(f)
  {
  }

  /** The token constructor, with the index already converted to an integer. */
  function FromTokens(index: int, token: string): (r: Result<Color, ColorError>)
    ensures r.Success? <==> token == "M" || token == "G"
    ensures r.Success? ==> r.value.index == index && FinishToken(r.value.finish) == token
    ensures r.Failure? ==> r.error.message == token + " is not a valid input"
  {
    match ParseFinish(token)
    case Success(f) => Success(Color(index, f))
    case Failure(e) => Failure(e)
  }

  function BuildGloss(index: int): (c: Color)
    ensures HasIndex(c, index) && c.IsGloss()
  {
    Color(index, G)
  }

  function BuildMatte(index: int): (c: Color)
    ensures HasIndex(c, index) && c.IsMatte()
  {
    Color(index, M)
  }

  predicate HasIndex(c: Color, index: int): (b: bool)
    ensures b <==> c == Color(index, c.finish)
  {
    c.index == index
  }

  /** A colour has exactly one of the two finishes. */
  lemma GlossXorMatte(c: Color)
    ensures c.IsGloss() <==> !c.IsMatte()
  {
  }

  /** `equals(Object)`: `None` plays the part of `null`. */
  function Equals(c: Color, o: Option<Color>): (r: bool)
    ensures r <==> o == Some(c)
  {
    match o
    case None => false
    case Some(other) => c.index == other.index && c.finish == other.finish
  }

  lemma EqualsIsReflexiveAndSymmetric(a: Color, b: Color)
    ensures Equals(a, Some(a))
    ensures Equals(a, Some(b)) <==> Equals(b, Some(a))
  {
  }

  const TwoTo32: int := 0x1_0000_0000

  predicate IsInt32(x: int) {
    -0x8000_0000 <= x < 0x8000_0000
  }

  /** Java's two's-complement wrap-around of an `int` result. */
  function Wrap32(x: int): (r: int)
    ensures IsInt32(r)
    ensures (x - r) % TwoTo32 == 0
  {
    var m := x % TwoTo32;
    assert x == TwoTo32 * (x / TwoTo32) + m;
    MultipleMod(x / TwoTo32);
    MultipleMod(x / TwoTo32 + 1);
    if m < 0x8000_0000 then m else m - TwoTo32
  }

  lemma MultipleMod(q: int)
    ensures (TwoTo32 * q) % TwoTo32 == 0
  {
  }

  /** Multiples of 2^32 are closed under addition. */
  lemma SumOfMultiples(a: int, b: int)
    requires a % TwoTo32 == 0 && b % TwoTo32 == 0
    ensures (a + b) % TwoTo32 == 0
  {
    assert a == TwoTo32 * (a / TwoTo32);
    assert b == TwoTo32 * (b / TwoTo32);
    assert a + b == TwoTo32 * (a / TwoTo32 + b / TwoTo32);
    MultipleMod(a / TwoTo32 + b / TwoTo32);
  }

  /** `hashCode()`. `Type.hashCode()` is identity-based, so it is a parameter. */
  function HashCode(c: Color, typeHash: Finish -> int): (h: int)
    ensures IsInt32(h)
    ensures (31 * c.index + typeHash(c.finish) - h) % TwoTo32 == 0
  {
    var low := Wrap32(31 * c.index);
    var h := Wrap32(low + typeHash(c.finish));
    SumOfMultiples(31 * c.index - low, low + typeHash(c.finish) - h);
    h
  }

  /** Colours that `equals` each other hash equally. */
  lemma HashCodeAgreesWithEquals(a: Color, b: Color, typeHash: Finish -> int)
    requires Equals(a, Some(b))
    ensures HashCode(a, typeHash) == HashCode(b, typeHash)
  {
  }

  // ---------------------------------------------------------------------
  // toString: "{" + index + type + "}"

  function DigitChar(d: int): (ch: char)
    requires 0 <= d < 10
    ensures '0' <= ch <= '9'
  {
    ('0' as int + d) as char
  }

  predicate AllDigits(s: string) {
    forall k :: 0 <= k < |s| ==> '0' <= s[k] <= '9'
  }

  /** The decimal digits of a natural number, most significant first. */
  function Digits(n: nat): (s: string)
    ensures |s| > 0 && AllDigits(s)
  {
    if n < 10 then [DigitChar(n)] else Digits(n / 10) + [DigitChar(n % 10)]
  }

  function DigitsValue(s: string): nat
    requires AllDigits(s)
  {
    if |s| == 0 then 0
    else DigitsValue(s[..|s| - 1]) * 10 + (s[|s| - 1] as int - '0' as int)
  }

  lemma {:induction false} DigitsRoundTrip(n: nat)
    ensures DigitsValue(Digits(n)) == n
  {
    if n >= 10 {
      var s := Digits(n);
      assert s[..|s| - 1] == Digits(n / 10);
      DigitsRoundTrip(n / 10);
    }
  }

  /** `Integer.toString`: an optional minus sign, then the digits. The text reads back
      as the same integer. */
  function DecimalString(i: int): (s: string)
    ensures |s| >= 1
    ensures ParseDecimal(s) == Some(i)
  {
    if i < 0 then
      NegativeRoundTrip(-i);
      "-" + Digits(-i)
    else
      NaturalRoundTrip(i);
      Digits(i)
  }

  function ParseDecimal(s: string): Option<int> {
    if |s| > 1 && s[0] == '-' && AllDigits(s[1..]) then Some(0 - DigitsValue(s[1..]))
    else if |s| > 0 && AllDigits(s) then Some(DigitsValue(s))
    else None
  }

  lemma NegativeRoundTrip(n: nat)
    requires n > 0
    ensures ParseDecimal("-" + Digits(n)) == Some(0 - n)
  {
    var d := Digits(n);
    var s := "-" + d;
    assert s[0] == '-' && |s| > 1;
    assert s[1..] == d;
    DigitsRoundTrip(n);
  }

  lemma NaturalRoundTrip(n: nat)
    ensures ParseDecimal(Digits(n)) == Some(n)
  {
    var s := Digits(n);
    assert s[0] != '-' by {
      assert '0' <= s[0] <= '9';
    }
    DigitsRoundTrip(n);
  }

  /** Reads back the text `ToString` produces. */
  function ParseColorText(s: string): Option<Color> {
    if |s| >= 4 && s[0] == '{' && s[|s| - 1] == '}' then
      match (ParseDecimal(s[1..|s| - 2]), ParseFinish([s[|s| - 2]]))
      case (Some(i), Success(f)) => Some(Color(i, f))
      case _ => None
    else None
  }

  /** `toString()`: `"{" + index + type + "}"`. The rendering loses nothing: index and
      finish can be read back from it. */
  function ToString(c: Color): (s: string)
    ensures ParseColorText(s) == Some(c)
  {
    var d := DecimalString(c.index);
    var t := FinishToken(c.finish);
    var s := "{" + d + t + "}";
    assert |s| == |d| + 3 && s[0] == '{' && s[|s| - 1] == '}';
    assert s[1..|s| - 2] == d;
    assert [s[|s| - 2]] == t;
    ParseFinishInvertsToken(c.finish);
    assert ParseDecimal(s[1..|s| - 2]) == Some(c.index);
    assert ParseFinish([s[|s| - 2]]) == Success(c.finish);
    s
  }

  lemma ToStringInjective(a: Color, b: Color)
    requires ToString(a) == ToString(b)
    ensures a == b
  {
    assert ParseColorText(ToString(a)) == Some(a);
    assert ParseColorText(ToString(b)) == Some(b);
  }
}

=== FILE: heuristics.dfy ===
/** The three heuristics of the solve loop: orphan filling, client-essential
    filling and most-frequent-Gloss filling. Each pass takes the working order
    and the partial solution and returns both, plus whether it added anything. */
module Heuristics {
  import opened Wrappers
  import opened Colors
  import opened Orders
  import opened Reducer

  datatype Pass = Pass(order: Order, solution: seq<Color>, progress: bool)

  /** The colour indices of an instance with `n` colours. */
  function Range(n: int): (r: set<int>)
    ensures forall k :: k in r <==> 1 <= k <= n
  {
    if n <= 0 then {} else Range(n - 1) + {n}
  }

  /** Commits each colour in turn and ignores the answers, as both filling passes do:
      a rejected commit leaves the order as it was. */
  function CommitAll(n: nat, order: Order, cs: seq<Color>): (r: Order)
    requires ValidOrder(n, order) && ValidColors(n, cs)
    ensures ValidOrder(n, r)
    ensures |r| <= |order|
    ensures TotalEntries(r) <= TotalEntries(order)
    ensures NoDuplicates(order) ==> NoDuplicates(r)
    ensures forall e :: e in Flatten(r) ==> e in Flatten(order)
    decreases |cs|
  {
    if |cs| == 0 then order
    else
      var c := cs[|cs| - 1];
      assert c in cs;
      assert forall e :: e in cs[..|cs| - 1] ==> e in cs;
      var before := CommitAll(n, order, cs[..|cs| - 1]);
      match Commit(n, before, c)
      case None => before
      case Some(after) =>
        PruneKeepsValid(n, before, c);
        PruneShrinks(before, c);
        PruneEntries(before, c);
        assert NoDuplicates(order) ==> NoDuplicates(after) by {
          if NoDuplicates(order) {
            PruneKeepsDistinct(before, c);
          }
        }
        after
  }

  /** Every commit of the sequence is accepted. */
  predicate AllAccepted(n: nat, order: Order, cs: seq<Color>)
    requires ValidOrder(n, order) && ValidColors(n, cs)
  {
    forall j :: 0 <= j < |cs| ==> Commit(n, CommitAll(n, order, cs[..j]), cs[j]).Some?
  }

  // ---------------------------------------------------------------------
  // addOrphans

  /** Index `k` is what `addOrphans` fills with Gloss: not yet decided, and either
      referenced by no client or referenced exactly once, by a Gloss preference. */
  predicate IsOrphan(order: Order, solution: seq<Color>, k: int) {
    && k !in Indices(solution)
    && (|| CountIndex(Flatten(order), k) == 0
        || (CountIndex(Flatten(order), k) == 1 && Color(k, G) in Flatten(order)))
  }

  /** The scan of `addOrphans` over indices `k..n`, in ascending order. */
  function OrphansFrom(n: nat, order: Order, solution: seq<Color>, k: int): (added: seq<Color>)
    requires 1 <= k
    ensures forall c :: c in added ==> k <= c.index <= n && c.finish == G && IsOrphan(order, solution, c.index)
    ensures forall j :: k <= j <= n && IsOrphan(order, solution, j) ==> Color(j, G) in added
    ensures DistinctIndices(added)
    decreases n + 1 - k
  {
    if k > n then []
    else
      var flat := Flatten(order);
      var undecided := k !in Indices(solution);
      var here :=
        if CountIndex(flat, k) == 0 && undecided then [BuildGloss(k)]
        else if CountIndex(flat, k) == 1 then
          match FirstWithIndex(flat, k)
          case Some(c) => if c.IsGloss() && undecided then [c] else []
          case None => []
        else [];
      var rest := OrphansFrom(n, order, solution, k + 1);
      assert IsOrphan(order, solution, k) ==> here == [Color(k, G)] by {
        if IsOrphan(order, solution, k) && CountIndex(flat, k) == 1 {
          var c := FirstWithIndex(flat, k).value;
          var j :| 0 <= j < |flat| && flat[j] == c && c.index == k;
          SoleEntry(flat, k, c);
        }
      }
      assert forall c :: c in here ==> c == Color(k, G) && IsOrphan(order, solution, k);
      DistinctPrepend(here, rest, k);
      here + rest
  }

  lemma DistinctPrepend(here: seq<Color>, rest: seq<Color>, k: int)
    requires |here| <= 1 && forall c :: c in here ==> c.index == k
    requires DistinctIndices(rest) && forall c :: c in rest ==> c.index > k
    ensures DistinctIndices(here + rest)
  {
    if |here| == 1 {
      DistinctCons(here[0], rest);
      assert [here[0]] == here;
    } else {
      assert here + rest == rest;
    }
  }

  /** `addOrphans`: fills every orphan index with Gloss and commits each of them. */
  function AddOrphans(n: nat, order: Order, solution: seq<Color>): (r: Pass)
    requires ValidOrder(n, order) && ValidColors(n, solution)
    ensures solution <= r.solution
    ensures forall c :: c in r.solution[|solution|..] ==>
                          InRange(n, c) && c.finish == G && IsOrphan(order, solution, c.index)
    ensures forall k :: 1 <= k <= n && IsOrphan(order, solution, k) ==> Color(k, G) in r.solution[|solution|..]
    ensures r.order == CommitAll(n, order, r.solution[|solution|..])
    ensures AllAccepted(n, order, r.solution[|solution|..])
    ensures NoDuplicates(order) ==> forall c :: c in r.solution[|solution|..] ==> !Mentions(r.order, c.index)
    ensures r.progress <==> |r.solution| > |solution|
    ensures r.progress ==> Indices(solution) < Indices(r.solution)
    ensures !r.progress ==> r.order == order && r.solution == solution
    ensures ValidOrder(n, r.order) && ValidColors(n, r.solution)
    ensures |r.order| <= |order|
    ensures TotalEntries(r.order) <= TotalEntries(order)
    ensures NoDuplicates(order) ==> NoDuplicates(r.order)
  {
    var added := OrphansFrom(n, order, solution, 1);
    var s' := solution + added;
    assert s'[|solution|..] == added;
    GrowIndices(solution, added);
    OrphanCommitsAccepted(n, order, solution);
    assert NoDuplicates(order) ==> forall c :: c in added ==> !Mentions(CommitAll(n, order, added), c.index) by {
      if NoDuplicates(order) {
        AcceptedClearsColumns(n, order, added);
      }
    }
    Pass(CommitAll(n, order, added), s', |added| > 0)
  }

  /** Some undecided index in `1..n` is an orphan, so `addOrphans` has work. */
  predicate HasOrphan(n: nat, order: Order, solution: seq<Color>) {
    exists k :: 1 <= k <= n && IsOrphan(order, solution, k)
  }

  /** `addOrphans` reports progress exactly when some index in range is an orphan. */
  lemma OrphansProgress(n: nat, order: Order, solution: seq<Color>)
    requires ValidOrder(n, order) && ValidColors(n, solution)
    ensures AddOrphans(n, order, solution).progress <==> HasOrphan(n, order, solution)
  {
  }

  /** When every commit of a sequence is accepted and no client repeats an index, no client
      left afterwards mentions any committed index: each accepted commit clears its column. */
  lemma {:induction false} AcceptedClearsColumns(n: nat, order: Order, cs: seq<Color>)
    requires ValidOrder(n, order) && NoDuplicates(order) && ValidColors(n, cs)
    requires AllAccepted(n, order, cs)
    ensures forall c :: c in cs ==> !Mentions(CommitAll(n, order, cs), c.index)
    decreases |cs|
  {
    if |cs| > 0 {
      var front := cs[..|cs| - 1];
      var c := cs[|cs| - 1];
      AcceptedPrefix(n, order, cs);
      AcceptedClearsColumns(n, order, front);
      var before := CommitAll(n, order, front);
      var after := CommitAll(n, order, cs);
      assert after == Prune(before, c);
      assert NoDuplicates(before);
      PruneClearsColumn(before, c);
      forall x | x in cs ensures !Mentions(after, x.index) {
        var j :| 0 <= j < |cs| && cs[j] == x;
        if j < |cs| - 1 {
          assert front[j] == x;
          PruneKeepsUnmentioned(before, c, x.index);
        }
      }
    }
  }

  /** The commits of a prefix of an all-accepted sequence are all accepted, and the whole
      sequence ends with the last commit accepted on the prefix's result. */
  lemma AcceptedPrefix(n: nat, order: Order, cs: seq<Color>)
    requires ValidOrder(n, order) && ValidColors(n, cs) && |cs| > 0
    requires AllAccepted(n, order, cs)
    ensures ValidColors(n, cs[..|cs| - 1])
    ensures AllAccepted(n, order, cs[..|cs| - 1])
    ensures CommitAll(n, order, cs) == Prune(CommitAll(n, order, cs[..|cs| - 1]), cs[|cs| - 1])
  {
    var m := |cs| - 1;
    var front := cs[..m];
    assert forall e :: e in front ==> e in cs;
    forall j | 0 <= j < |front| ensures Commit(n, CommitAll(n, order, front[..j]), front[j]).Some? {
      PrefixOfPrefix(cs, m, j);
    }
    LastCommitAccepted(n, order, cs);
  }

  lemma PrefixOfPrefix(cs: seq<Color>, m: int, j: int)
    requires 0 <= j < m <= |cs|
    ensures cs[..m][..j] == cs[..j] && cs[..m][j] == cs[j]
  {
  }

  lemma LastCommitAccepted(n: nat, order: Order, cs: seq<Color>)
    requires ValidOrder(n, order) && ValidColors(n, cs) && |cs| > 0
    requires Commit(n, CommitAll(n, order, cs[..|cs| - 1]), cs[|cs| - 1]).Some?
    ensures CommitAll(n, order, cs) == Prune(CommitAll(n, order, cs[..|cs| - 1]), cs[|cs| - 1])
  {
  }

  /** Appending colours of undecided indices strictly grows the decided set. */
  lemma GrowIndices(solution: seq<Color>, added: seq<Color>)
    requires forall c :: c in added ==> c.index !in Indices(solution)
    ensures Indices(solution) <= Indices(solution + added)
    ensures |added| > 0 ==> Indices(solution) < Indices(solution + added)
  {
    if |added| > 0 {
      assert added[0] in solution + added;
      assert added[0].index in Indices(solution + added);
    }
  }

  /** Every remaining entry with index `k` is Gloss. */
  predicate OnlyGloss(order: Order, k: int) {
    forall e :: e in Flatten(order) && e.index == k ==> e.finish == G
  }

  /** The commits `addOrphans` issues are never rejected: its ignored return is always `true`. */
  lemma OrphanCommitsAccepted(n: nat, order: Order, solution: seq<Color>)
    requires ValidOrder(n, order)
    ensures AllAccepted(n, order, OrphansFrom(n, order, solution, 1))
  {
    var added := OrphansFrom(n, order, solution, 1);
    forall j | 0 <= j < |added| ensures Commit(n, CommitAll(n, order, added[..j]), added[j]).Some? {
      var c := added[j];
      var before := CommitAll(n, order, added[..j]);
      var flat := Flatten(order);
      assert IsOrphan(order, solution, c.index);
      assert OnlyGloss(order, c.index) by {
        if CountIndex(flat, c.index) == 1 {
          SoleEntry(flat, c.index, Color(c.index, G));
        }
      }
      forall i | 0 <= i < |before| ensures !Conflicts(before[i], c) {
        if |before[i]| == 1 {
          FlattenMembership(before, before[i][0]);
        }
      }
    }
  }

  // ---------------------------------------------------------------------
  // addClientEssential

  /** The scan of `addClientEssential`: the sole preference of every one-entry client whose
      index the solution (as it stood before the pass) does not decide, in client order. */
  function EssentialsOf(order: Order, solution: seq<Color>): (added: seq<Color>)
    ensures forall c :: c in added <==> [c] in order && c.index !in Indices(solution)
  {
    if |order| == 0 then []
    else
      var row := order[0];
      var here := if |row| == 1 && row[0].index !in Indices(solution) then [row[0]] else [];
      var rest := EssentialsOf(order[1..], solution);
      assert forall c :: [c] in order <==> [c] == row || [c] in order[1..];
      assert |row| == 1 ==> row == [row[0]];
      here + rest
  }

  /** The scan visits clients in order: the essentials of two consecutive stretches of
      clients are those of the first stretch followed by those of the second. */
  lemma {:induction false} EssentialsAppend(a: Order, b: Order, solution: seq<Color>)
    ensures EssentialsOf(a + b, solution) == EssentialsOf(a, solution) + EssentialsOf(b, solution)
  {
    if |a| == 0 {
      assert a + b == b;
    } else {
      assert (a + b)[0] == a[0];
      assert (a + b)[1..] == a[1..] + b;
      EssentialsAppend(a[1..], b, solution);
    }
  }

  /** A single client contributes its sole preference when it has exactly one and that index
      is undecided, and nothing otherwise; repeats across clients are all kept. */
  lemma EssentialsOfOne(row: Row, solution: seq<Color>)
    ensures EssentialsOf([row], solution) ==
              if |row| == 1 && row[0].index !in Indices(solution) then [row[0]] else []
  {
    assert [row][1..] == [];
  }

  /** `addClientEssential`: adds every essential preference, then commits each of them. */
  function AddClientEssential(n: nat, order: Order, solution: seq<Color>): (r: Pass)
    requires ValidOrder(n, order) && ValidColors(n, solution)
    ensures solution <= r.solution
    ensures r.solution[|solution|..] == EssentialsOf(order, solution)
    ensures forall c :: c in r.solution[|solution|..] <==> [c] in order && c.index !in Indices(solution)
    ensures ValidColors(n, r.solution[|solution|..])
    ensures r.order == CommitAll(n, order, r.solution[|solution|..])
    ensures r.progress <==> |r.solution| > |solution|
    ensures r.progress ==> Indices(solution) < Indices(r.solution)
    ensures !r.progress ==> r.order == order && r.solution == solution
    ensures ValidOrder(n, r.order) && ValidColors(n, r.solution)
    ensures |r.order| <= |order|
    ensures TotalEntries(r.order) <= TotalEntries(order)
    ensures NoDuplicates(order) ==> NoDuplicates(r.order)
  {
    var added := EssentialsOf(order, solution);
    assert ValidColors(n, added) by {
      forall c | c in added ensures InRange(n, c) {
        assert [c] in order && c in [c];
      }
    }
    var s' := solution + added;
    assert s'[|solution|..] == added;
    GrowIndices(solution, added);
    Pass(CommitAll(n, order, added), s', |added| > 0)
  }

  /** Some one-entry client names an undecided index, so `addClientEssential` has work. */
  predicate HasEssential(order: Order, solution: seq<Color>) {
    exists row: Row :: row in order && |row| == 1 && row[0].index !in Indices(solution)
  }

  /** `addClientEssential` reports progress exactly when some one-entry client names an
      undecided index. */
  lemma EssentialsProgress(n: nat, order: Order, solution: seq<Color>)
    requires ValidOrder(n, order) && ValidColors(n, solution)
    ensures AddClientEssential(n, order, solution).progress <==> HasEssential(order, solution)
  {
    var r := AddClientEssential(n, order, solution);
    var added := r.solution[|solution|..];
    if r.progress {
      var c := added[0];
      assert c in added;
      assert [c] in order && [c][0] == c;
    }
    if HasEssential(order, solution) {
      var row: Row :| row in order && |row| == 1 && row[0].index !in Indices(solution);
      assert row == [row[0]];
      assert row[0] in added;
    }
  }

  /** A pending essential preference: its one-entry client is still there, or its index has
      disappeared from the order altogether (an earlier commit of that index went through). */
  predicate Pending(order: Order, x: Color) {
    [x] in order || !Mentions(order, x.index)
  }

  lemma CommitKeepsPending(n: nat, order: Order, y: Color, x: Color)
    requires ValidOrder(n, order) && NoDuplicates(order) && InRange(n, y)
    requires Pending(order, x)
    ensures Pending(Commit(n, order, y).GetOr(order), x)
  {
    if Commit(n, order, y).Some? {
      var after := Prune(order, y);
      PruneEntries(order, y);
      if !Mentions(order, x.index) {
        assert !Mentions(after, x.index);
      } else if x == y {
        PruneClearsColumn(order, y);
      } else {
        var i :| 0 <= i < |order| && order[i] == [x];
        assert !Conflicts(order[i], y);
        assert x.index != y.index;
        assert !Settles(order[i], y);
        PruneKeepsUnsettled(order, y, i);
      }
    }
  }

  lemma {:induction false} PendingThroughCommits(n: nat, order: Order, cs: seq<Color>, x: Color)
    requires ValidOrder(n, order) && NoDuplicates(order) && ValidColors(n, cs)
    requires Pending(order, x)
    ensures Pending(CommitAll(n, order, cs), x)
    decreases |cs|
  {
    if |cs| > 0 {
      var c := cs[|cs| - 1];
      assert c in cs;
      assert forall e :: e in cs[..|cs| - 1] ==> e in cs;
      PendingThroughCommits(n, order, cs[..|cs| - 1], x);
      CommitKeepsPending(n, CommitAll(n, order, cs[..|cs| - 1]), c, x);
    }
  }

  /** A commit issued by `addClientEssential` is rejected only when, at that moment, the
      order holds both the committing one-entry client and a one-entry client that wants
      the same colour index with the other finish. */
  lemma EssentialRejection(n: nat, order: Order, solution: seq<Color>, j: int)
    requires ValidOrder(n, order) && NoDuplicates(order)
    requires 0 <= j < |EssentialsOf(order, solution)|
    ensures var added := EssentialsOf(order, solution);
            ValidColors(n, added) && Commit(n, CommitAll(n, order, added[..j]), added[j]).None? ==>
              var before := CommitAll(n, order, added[..j]);
              && [added[j]] in before
              && exists f :: f != added[j].finish && [Color(added[j].index, f)] in before
  {
    var added := EssentialsOf(order, solution);
    var x := added[j];
    var before := CommitAll(n, order, added[..j]);
    if !(ValidColors(n, added) && Commit(n, before, x).None?) {
      return;
    }
    assert x in added;
    PendingThroughCommits(n, order, added[..j], x);
    var i :| 0 <= i < |before| && Conflicts(before[i], x);
    var e := before[i][0];
    assert before[i] == [e];
    FlattenMembership(before, e);
    assert e.index in Indices(Flatten(before));
    assert [Color(x.index, e.finish)] in before;
  }

  // ---------------------------------------------------------------------
  // addMostFrequentGloss

  /** The `frequency` entry of `addMostFrequentGloss`: Gloss preferences for index `k`. */
  function GlossCount(order: Order, k: int): nat {
    CountColor(Flatten(order), Color(k, G))
  }

  predicate IsMostFrequentGloss(n: int, order: Order, k: int) {
    forall i :: 1 <= i <= n ==> GlossCount(order, i) <= GlossCount(order, k)
  }

  /** `Arrays.stream(frequency).max().orElse(0)` over indices `1..k`. */
  function MaxGlossCount(order: Order, k: int): (m: nat)
    ensures forall i :: 1 <= i <= k ==> GlossCount(order, i) <= m
    ensures m == 0 || exists i :: 1 <= i <= k && GlossCount(order, i) == m
    decreases k
  {
    if k <= 0 then 0
    else
      var rest := MaxGlossCount(order, k - 1);
      if GlossCount(order, k) > rest then GlossCount(order, k) else rest
  }

  /** The `frequency` array of `addMostFrequentGloss`: slot `i` counts the Gloss entries of
      index `i + 1`. */
  function GlossFrequencies(n: nat, order: Order): (freq: seq<nat>)
    ensures |freq| == n
    ensures forall i :: 0 <= i < n ==> freq[i] == GlossCount(order, i + 1)
  {
    seq(n, i requires 0 <= i < n => GlossCount(order, i + 1))
  }

  /** The ascending scan over indices `k..n` for one whose frequency is `max` and whose
      Gloss commit is accepted. */
  function FirstAccepted(n: nat, order: Order, freq: seq<nat>, max: nat, k: int): (r: Option<(int, Order)>)
    requires ValidOrder(n, order) && |freq| == n && 1 <= k
    ensures r.Some? ==> k <= r.value.0 <= n && freq[r.value.0 - 1] == max
                        && Commit(n, order, Color(r.value.0, G)) == Some(r.value.1)
    ensures r.Some? ==> forall i :: (k <= i < r.value.0 && freq[i - 1] == max)
                                      ==> Commit(n, order, Color(i, G)).None?
    ensures r.None? ==> forall i :: (k <= i <= n && freq[i - 1] == max)
                                      ==> Commit(n, order, Color(i, G)).None?
    decreases n + 1 - k
  {
    if k > n then None
    else
      var found := if freq[k - 1] == max then Commit(n, order, Color(k, G)) else None;
      if found.Some? then Some((k, found.value))
      else FirstAccepted(n, order, freq, max, k + 1)
  }

  /** `addMostFrequentGloss`: commits Gloss for the lowest index of maximal positive Gloss
      frequency whose commit is accepted. */
  function AddMostFrequentGloss(n: nat, order: Order, solution: seq<Color>): (r: Pass)
    requires ValidOrder(n, order) && ValidColors(n, solution)
    ensures r.progress ==>
              exists k :: && 1 <= k <= n
                          && r.solution == solution + [Color(k, G)]
                          && GlossCount(order, k) > 0
                          && IsMostFrequentGloss(n, order, k)
                          && Commit(n, order, Color(k, G)) == Some(r.order)
                          && forall i :: (1 <= i < k && GlossCount(order, i) == GlossCount(order, k))
                                           ==> Commit(n, order, Color(i, G)).None?
    ensures !r.progress <==> forall i :: (1 <= i <= n && GlossCount(order, i) > 0 && IsMostFrequentGloss(n, order, i))
                                           ==> Commit(n, order, Color(i, G)).None?
    ensures !r.progress ==> r.order == order && r.solution == solution
    ensures r.progress ==> TotalEntries(r.order) < TotalEntries(order)
    ensures |r.order| <= |order|
    ensures r.progress && NoDuplicates(order) ==> |r.order| < |order|
    ensures ValidOrder(n, r.order) && ValidColors(n, r.solution)
    ensures Indices(solution) <= Indices(r.solution)
    ensures NoDuplicates(order) ==> NoDuplicates(r.order)
  {
    var max := MaxGlossCount(order, n);
    var found := if max > 0 then FirstAccepted(n, order, GlossFrequencies(n, order), max, 1) else None;
    ScanFindsMostFrequent(n, order);
    if found.Some? then
      var k := found.value.0;
      var after := found.value.1;
      GlossCommitShrinks(n, order, k);
      IndicesAppend(n, solution, Color(k, G));
      assert GlossCount(order, k) > 0 && IsMostFrequentGloss(n, order, k);
      Pass(after, solution + [Color(k, G)], true)
    else Pass(order, solution, false)
  }

  /** What the scan over the frequency table finds, in terms of Gloss counts: the lowest
      accepted index of maximal positive count, or `None` when every such index is rejected. */
  lemma ScanFindsMostFrequent(n: nat, order: Order)
    requires ValidOrder(n, order)
    ensures var max := MaxGlossCount(order, n);
            var found := if max > 0 then FirstAccepted(n, order, GlossFrequencies(n, order), max, 1) else None;
            && (found.Some? ==>
                  var k := found.value.0;
                  && 1 <= k <= n && GlossCount(order, k) > 0 && IsMostFrequentGloss(n, order, k)
                  && Commit(n, order, Color(k, G)) == Some(found.value.1)
                  && forall i :: (1 <= i < k && GlossCount(order, i) == GlossCount(order, k))
                                   ==> Commit(n, order, Color(i, G)).None?)
            && (found.None? ==>
                  forall i :: (1 <= i <= n && GlossCount(order, i) > 0 && IsMostFrequentGloss(n, order, i))
                                ==> Commit(n, order, Color(i, G)).None?)
  {
    MostFrequentIsMax(n, order);
  }

  lemma IndicesAppend(n: int, s: seq<Color>, c: Color)
    ensures Indices(s + [c]) == Indices(s) + {c.index}
    ensures ValidColors(n, s) && InRange(n, c) ==> ValidColors(n, s + [c])
  {
    assert c in s + [c];
    assert forall e :: e in s + [c] <==> e in s || e == c;
  }

  /** The colours of maximal Gloss frequency are those whose count equals the maximum. */
  lemma MostFrequentIsMax(n: nat, order: Order)
    ensures forall i :: 1 <= i <= n ==>
                          (IsMostFrequentGloss(n, order, i) <==> GlossCount(order, i) == MaxGlossCount(order, n))
  {
    var max := MaxGlossCount(order, n);
    if max > 0 {
      var j :| 1 <= j <= n && GlossCount(order, j) == max;
    }
  }

  /** An accepted Gloss commit of an index with positive Gloss frequency removes at least one
      entry; without duplicate indices it removes at least one client. */
  lemma GlossCommitShrinks(n: nat, order: Order, k: int)
    requires ValidOrder(n, order) && 1 <= k <= n
    requires GlossCount(order, k) > 0 && Commit(n, order, Color(k, G)).Some?
    ensures var after := Commit(n, order, Color(k, G)).value;
            && TotalEntries(after) < TotalEntries(order)
            && ValidOrder(n, after)
            && (NoDuplicates(order) ==> NoDuplicates(after) && |after| < |order|)
  {
    var c := Color(k, G);
    assert c in Flatten(order);
    assert Mentions(order, k) by {
      assert c.index in Indices(Flatten(order));
    }
    PruneShrinks(order, c);
    PruneKeepsValid(n, order, c);
    if NoDuplicates(order) {
      FlattenMembership(order, c);
      var i :| 0 <= i < |order| && c in order[i];
      PruneKeepsDistinct(order, c);
      SettlesIffContains(order[i], c);
      assert SettledCount(order, c) > 0;
      PruneDropsSettled(order, c);
    }
  }
}

=== FILE: orders.dfy ===
/** Orders: a list of clients, each client a list of colour preferences read
    as a logical OR. Shared definitions used by the reducer, the heuristics
    and the solve loop. */
module Orders {
  import opened Wrappers
  import opened Colors

  /** One client: the preferences it still accepts, in input order. */
  type Row = seq<Color>

  /** The clients not yet known to be satisfied. */
  type Order = seq<Row>

  predicate InRange(n: int, c: Color) {
    1 <= c.index <= n
  }

  /** Every index lies in `1..n`, so the source's `index - 1` array accesses succeed. */
  predicate ValidColors(n: int, s: seq<Color>) {
    forall e :: e in s ==> InRange(n, e)
  }

  predicate ValidOrder(n: int, order: Order) {
    forall row :: row in order ==> ValidColors(n, row)
  }

  /** A row mentions each colour index at most once. */
  predicate DistinctIndices(row: Row) {
    forall i, j :: 0 <= i < j < |row| ==> row[i].index != row[j].index
  }

  predicate NoDuplicates(order: Order) {
    forall row :: row in order ==> DistinctIndices(row)
  }

  /** `order.stream().flatMap(List::stream)`: all entries, row after row. */
  function Flatten(order: Order): (s: seq<Color>)
    ensures |s| == TotalEntries(order)
  {
    if |order| == 0 then [] else order[0] + Flatten(order[1..])
  }

  function TotalEntries(order: Order): nat {
    if |order| == 0 then 0 else |order[0]| + TotalEntries(order[1..])
  }

  lemma {:induction false} FlattenMembership(order: Order, e: Color)
    ensures e in Flatten(order) <==> exists i :: 0 <= i < |order| && e in order[i]
  {
    if |order| > 0 {
      FlattenMembership(order[1..], e);
      if e in Flatten(order[1..]) {
        var i :| 0 <= i < |order[1..]| && e in order[1..][i];
        assert e in order[i + 1];
      }
      if exists i :: 0 <= i < |order| && e in order[i] {
        var i :| 0 <= i < |order| && e in order[i];
        if i > 0 {
          assert e in order[1..][i - 1];
        }
      }
    }
  }

  lemma {:induction false} FlattenAppend(a: Order, b: Order)
    ensures Flatten(a + b) == Flatten(a) + Flatten(b)
  {
    if |a| > 0 {
      assert (a + b)[1..] == a[1..] + b;
      FlattenAppend(a[1..], b);
    } else {
      assert a + b == b;
    }
  }

  /** The set of colour indices mentioned by a list of colours. */
  function Indices(s: seq<Color>): set<int> {
    set e | e in s :: e.index
  }

  /** Colour index `k` is mentioned by some remaining client. */
  predicate Mentions(order: Order, k: int) {
    k in Indices(Flatten(order))
  }

  /** How many entries carry index `k` (the `frequency` table of `addOrphans`). */
  function CountIndex(s: seq<Color>, k: int): (r: nat)
    ensures r <= |s|
    ensures r == 0 <==> k !in Indices(s)
  {
    if |s| == 0 then 0
    else (if s[0].index == k then 1 else 0) + CountIndex(s[1..], k)
  }

  /** How many entries equal `c` (for `c = (k, G)`: the `frequency` table of `addMostFrequentGloss`). */
  function CountColor(s: seq<Color>, c: Color): (r: nat)
    ensures r <= CountIndex(s, c.index)
    ensures r == 0 <==> c !in s
  {
    if |s| == 0 then 0
    else (if s[0] == c then 1 else 0) + CountColor(s[1..], c)
  }

  /** `findFirst` over a stream of colours filtered by index. */
  function FirstWithIndex(s: seq<Color>, k: int): (r: Option<Color>)
    ensures r.None? <==> k !in Indices(s)
    ensures r.Some? ==> exists j :: 0 <= j < |s| && s[j] == r.value && r.value.index == k
                                    && forall j' :: 0 <= j' < j ==> s[j'].index != k
  {
    if |s| == 0 then None
    else if s[0].index == k then Some(s[0])
    else
      var r := FirstWithIndex(s[1..], k);
      assert r.Some? ==> exists j :: 0 <= j < |s| && s[j] == r.value && s[j].index == k
                                     && forall j' :: 0 <= j' < j ==> s[j'].index != k by {
        if r.Some? {
          var j :| 0 <= j < |s[1..]| && s[1..][j] == r.value && r.value.index == k
                   && forall j' :: 0 <= j' < j ==> s[1..][j'].index != k;
          assert s[j + 1] == r.value;
          forall j' | 0 <= j' < j + 1 ensures s[j'].index != k {
            if j' > 0 {
              assert s[j'] == s[1..][j' - 1];
            }
          }
        }
      }
      r
  }

  /** When exactly one entry carries index `k`, every entry with that index is that one. */
  lemma {:induction false} SoleEntry(s: seq<Color>, k: int, x: Color)
    requires CountIndex(s, k) == 1 && x in s && x.index == k
    ensures forall e :: e in s && e.index == k ==> e == x
  {
    if s[0].index == k {
      assert CountIndex(s[1..], k) == 0;
      assert forall e :: e in s[1..] ==> e.index != k;
    } else {
      assert x in s[1..];
      SoleEntry(s[1..], k, x);
    }
  }

  /** The cell `expand` stores for column `k` of a row: the LAST entry with that index. */
  function LastEntry(row: seq<Color>, k: int): (r: Option<Color>)
    ensures r.None? <==> k !in Indices(row)
    ensures r.Some? ==> exists j :: 0 <= j < |row| && row[j] == r.value && r.value.index == k
                                    && forall j' :: j < j' < |row| ==> row[j'].index != k
  {
    if |row| == 0 then None
    else if row[|row| - 1].index == k then Some(row[|row| - 1])
    else
      var front := row[..|row| - 1];
      assert Indices(row) == Indices(front) + {row[|row| - 1].index};
      LastEntry(front, k)
  }

  /** The column removal of `columnSatisfiedBy`: drop the FIRST entry with index `k`. */
  function RemoveFirst(row: Row, k: int): (r: Row)
    ensures k !in Indices(row) ==> r == row
  {
    if |row| == 0 then []
    else if row[0].index == k then row[1..]
    else [row[0]] + RemoveFirst(row[1..], k)
  }

  /** When `j` is the first position holding index `k`, exactly that entry is removed. */
  lemma {:induction false} RemoveFirstAt(row: Row, k: int, j: int)
    requires 0 <= j < |row| && row[j].index == k
    requires forall j' :: 0 <= j' < j ==> row[j'].index != k
    ensures RemoveFirst(row, k) == row[..j] + row[j + 1..]
  {
    if j == 0 {
      assert RemoveFirst(row, k) == row[1..];
    } else {
      var tail := row[1..];
      assert row[0].index != k;
      assert RemoveFirst(row, k) == [row[0]] + RemoveFirst(tail, k);
      forall j' | 0 <= j' < j - 1 ensures tail[j'].index != k {
        assert tail[j'] == row[j' + 1];
      }
      RemoveFirstAt(tail, k, j - 1);
      assert row[..j] == [row[0]] + tail[..j - 1];
      assert row[j + 1..] == tail[j..];
    }
  }
}

=== FILE: reducer.dfy ===
/** The constraint reducer: `columnSatisfiedBy` and the `expand` grid it reads. */
module Reducer {
  import opened Wrappers
  import opened Colors
  import opened Orders

  /** One row of `expand`: a cell per colour index, each entry written in turn,
      so a later entry with the same index overwrites an earlier one. */
  function ExpandRow(row: Row, n: nat): (cells: seq<Option<Color>>)
    requires ValidColors(n, row)
    ensures |cells| == n
    ensures forall j :: 0 <= j < n ==> cells[j] == LastEntry(row, j + 1)
  {
    if |row| == 0 then seq(n, _ => None)
    else
      var last := row[|row| - 1];
      assert last in row;
      assert forall e :: e in row[..|row| - 1] ==> e in row;
      ExpandRow(row[..|row| - 1], n)[last.index - 1 := Some(last)]
  }

  /** `expand(order, colorCount)`: the `order.size() x colorCount` grid. */
  function Expand(order: Order, n: nat): (grid: seq<seq<Option<Color>>>)
    requires ValidOrder(n, order)
    ensures |grid| == |order|
    ensures forall i :: 0 <= i < |order| ==> |grid[i]| == n
    ensures forall i, j :: 0 <= i < |order| && 0 <= j < n ==> grid[i][j] == LastEntry(order[i], j + 1)
  {
    seq(|order|, i requires 0 <= i < |order| => ExpandRow(order[i], n))
  }

  /** The grid cell of `row` in the committed colour's column holds that very colour:
      the row goes to `rowsToRemove`. */
  predicate Settles(row: Row, color: Color) {
    LastEntry(row, color.index) == Some(color)
  }

  /** A client whose only remaining preference is the committed colour with the other finish. */
  predicate Conflicts(row: Row, color: Color) {
    |row| == 1 && row[0].index == color.index && row[0].finish != color.finish
  }

  /** The accepted branch of `columnSatisfiedBy`: drop the settled rows, then the first
      entry of the committed index from each remaining row. */
  function Prune(order: Order, color: Color): (r: Order)
    ensures |r| <= |order|
  {
    if |order| == 0 then []
    else
      (if Settles(order[0], color) then [] else [RemoveFirst(order[0], color.index)])
      + Prune(order[1..], color)
  }

  /** The scan of `columnSatisfiedBy` over grid rows `i..`: it stops (`satisfy = false`)
      at the first one-entry client whose cell in the column holds the other finish. */
  function ConflictFrom(n: nat, order: Order, grid: seq<seq<Option<Color>>>, color: Color, i: nat): (found: bool)
    requires ValidOrder(n, order) && InRange(n, color)
    requires grid == Expand(order, n) && i <= |order|
    ensures found <==> exists j :: i <= j < |order| && Conflicts(order[j], color)
    decreases |order| - i
  {
    if i == |order| then false
    else
      var cell := grid[i][color.index - 1];
      assert |order[i]| == 1 ==> (cell.Some? <==> order[i][0].index == color.index);
      assert |order[i]| == 1 && cell.Some? ==> cell.value == order[i][0] by {
        if |order[i]| == 1 && cell.Some? {
          assert order[i][0] in order[i];
        }
      }
      if cell.Some? && cell.value.finish != color.finish && |order[i]| == 1 then true
      else ConflictFrom(n, order, grid, color, i + 1)
  }

  /** `columnSatisfiedBy`: `None` is the `false` return (the order is left as it was),
      `Some(o)` the `true` return together with the reduced order. */
  function Commit(n: nat, order: Order, color: Color): (r: Option<Order>)
    requires ValidOrder(n, order) && InRange(n, color)
    ensures r.None? <==> exists i :: 0 <= i < |order| && Conflicts(order[i], color)
    ensures r.Some? ==> r.value == Prune(order, color)
  {
    if ConflictFrom(n, order, Expand(order, n), color, 0) then None
    else Some(Prune(order, color))
  }

  // ---------------------------------------------------------------------
  // What an accepted commit does to the order

  lemma {:induction false} RemoveFirstSubset(row: Row, k: int)
    ensures forall e :: e in RemoveFirst(row, k) ==> e in row
  {
    if |row| > 0 && row[0].index != k {
      RemoveFirstSubset(row[1..], k);
    }
  }

  lemma {:induction false} RemoveFirstLength(row: Row, k: int)
    ensures |RemoveFirst(row, k)| == if k in Indices(row) then |row| - 1 else |row|
  {
    if |row| > 0 {
      assert Indices(row) == {row[0].index} + Indices(row[1..]);
      if row[0].index != k {
        RemoveFirstLength(row[1..], k);
      }
    }
  }

  lemma DistinctTail(row: Row)
    requires |row| > 0 && DistinctIndices(row)
    ensures DistinctIndices(row[1..])
    ensures row[0].index !in Indices(row[1..])
  {
    var tail := row[1..];
    forall a, b | 0 <= a < b < |tail| ensures tail[a].index != tail[b].index {
      assert tail[a] == row[a + 1] && tail[b] == row[b + 1];
    }
    forall e | e in tail ensures e.index != row[0].index {
      var a :| 0 <= a < |tail| && tail[a] == e;
      assert tail[a] == row[a + 1];
    }
  }

  lemma DistinctCons(x: Color, rest: Row)
    requires DistinctIndices(rest) && x.index !in Indices(rest)
    ensures DistinctIndices([x] + rest)
  {
    var r := [x] + rest;
    forall a, b | 0 <= a < b < |r| ensures r[a].index != r[b].index {
      assert r[b] == rest[b - 1];
      if a > 0 {
        assert r[a] == rest[a - 1];
      } else {
        assert r[b] in rest;
      }
    }
  }

  lemma {:induction false} RemoveFirstDistinct(row: Row, k: int)
    requires DistinctIndices(row)
    ensures DistinctIndices(RemoveFirst(row, k))
    ensures k !in Indices(RemoveFirst(row, k))
  {
    if |row| > 0 {
      DistinctTail(row);
      if row[0].index != k {
        var rest := RemoveFirst(row[1..], k);
        RemoveFirstDistinct(row[1..], k);
        RemoveFirstSubset(row[1..], k);
        assert row[0].index !in Indices(rest);
        DistinctCons(row[0], rest);
        assert Indices([row[0]] + rest) == {row[0].index} + Indices(rest);
      }
    }
  }

  /** Row order is kept: pruning distributes over concatenation. */
  lemma {:induction false} PruneAppend(a: Order, b: Order, color: Color)
    ensures Prune(a + b, color) == Prune(a, color) + Prune(b, color)
  {
    if |a| == 0 {
      assert a + b == b;
    } else {
      var head := if Settles(a[0], color) then [] else [RemoveFirst(a[0], color.index)];
      assert (a + b)[0] == a[0];
      assert (a + b)[1..] == a[1..] + b;
      PruneAppend(a[1..], b, color);
      calc {
        Prune(a + b, color);
        head + Prune(a[1..] + b, color);
        head + (Prune(a[1..], color) + Prune(b, color));
        (head + Prune(a[1..], color)) + Prune(b, color);
        Prune(a, color) + Prune(b, color);
      }
    }
  }

  /** Every unsettled row survives, with its first entry of the committed index removed. */
  lemma {:induction false} PruneKeepsUnsettled(order: Order, color: Color, i: int)
    requires 0 <= i < |order| && !Settles(order[i], color)
    ensures RemoveFirst(order[i], color.index) in Prune(order, color)
  {
    if i > 0 {
      PruneKeepsUnsettled(order[1..], color, i - 1);
    }
  }

  /** Every surviving row comes from an unsettled row of the input. */
  lemma {:induction false} PruneOrigin(order: Order, color: Color, row': Row)
    requires row' in Prune(order, color)
    ensures exists i :: 0 <= i < |order| && !Settles(order[i], color) && row' == RemoveFirst(order[i], color.index)
  {
    var head := if Settles(order[0], color) then [] else [RemoveFirst(order[0], color.index)];
    if row' in head {
    } else {
      PruneOrigin(order[1..], color, row');
      var i :| 0 <= i < |order[1..]| && !Settles(order[1..][i], color)
               && row' == RemoveFirst(order[1..][i], color.index);
      assert order[1..][i] == order[i + 1];
    }
  }

  /** How many rows a commit of `color` settles. */
  function SettledCount(order: Order, color: Color): (r: nat)
    ensures r <= |order|
    ensures r == 0 <==> forall i :: 0 <= i < |order| ==> !Settles(order[i], color)
  {
    if |order| == 0 then 0
    else
      assert forall i :: 1 <= i < |order| ==> order[i] == order[1..][i - 1];
      (if Settles(order[0], color) then 1 else 0) + SettledCount(order[1..], color)
  }

  /** Settled rows leave: the result has exactly one row fewer per settled row. */
  lemma {:induction false} PruneDropsSettled(order: Order, color: Color)
    ensures |Prune(order, color)| == |order| - SettledCount(order, color)
  {
    if |order| > 0 {
      PruneDropsSettled(order[1..], color);
    }
  }

  /** Pruning never adds an entry: every entry left was an entry before. */
  lemma PruneEntries(order: Order, color: Color)
    ensures forall e :: e in Flatten(Prune(order, color)) ==> e in Flatten(order)
  {
    forall e | e in Flatten(Prune(order, color)) ensures e in Flatten(order) {
      FlattenMembership(Prune(order, color), e);
      var i :| 0 <= i < |Prune(order, color)| && e in Prune(order, color)[i];
      PruneOrigin(order, color, Prune(order, color)[i]);
      var i' :| 0 <= i' < |order| && !Settles(order[i'], color)
                && Prune(order, color)[i] == RemoveFirst(order[i'], color.index);
      RemoveFirstSubset(order[i'], color.index);
      FlattenMembership(order, e);
    }
  }

  /** A commit never brings back an index the order no longer mentions. */
  lemma PruneKeepsUnmentioned(order: Order, color: Color, k: int)
    requires !Mentions(order, k)
    ensures !Mentions(Prune(order, color), k)
  {
    PruneEntries(order, color);
  }

  lemma PruneKeepsValid(n: int, order: Order, color: Color)
    requires ValidOrder(n, order)
    ensures ValidOrder(n, Prune(order, color))
  {
    forall row' | row' in Prune(order, color) ensures ValidColors(n, row') {
      PruneOrigin(order, color, row');
      var i :| 0 <= i < |order| && !Settles(order[i], color) && row' == RemoveFirst(order[i], color.index);
      RemoveFirstSubset(order[i], color.index);
      assert ValidColors(n, order[i]);
    }
  }

  lemma PruneKeepsDistinct(order: Order, color: Color)
    requires NoDuplicates(order)
    ensures NoDuplicates(Prune(order, color))
  {
    forall row' | row' in Prune(order, color) ensures DistinctIndices(row') {
      PruneOrigin(order, color, row');
      var i :| 0 <= i < |order| && !Settles(order[i], color) && row' == RemoveFirst(order[i], color.index);
      RemoveFirstDistinct(order[i], color.index);
    }
  }

  /** Without duplicate indices, no remaining row mentions the committed colour index. */
  lemma PruneClearsColumn(order: Order, color: Color)
    requires NoDuplicates(order)
    ensures !Mentions(Prune(order, color), color.index)
  {
    if Mentions(Prune(order, color), color.index) {
      var e :| e in Flatten(Prune(order, color)) && e.index == color.index;
      FlattenMembership(Prune(order, color), e);
      var i :| 0 <= i < |Prune(order, color)| && e in Prune(order, color)[i];
      PruneOrigin(order, color, Prune(order, color)[i]);
      var i' :| 0 <= i' < |order| && !Settles(order[i'], color)
                && Prune(order, color)[i] == RemoveFirst(order[i'], color.index);
      RemoveFirstDistinct(order[i'], color.index);
      assert false;
    }
  }

  /** A commit of an index no client mentions leaves the order as it was. */
  lemma {:induction false} PruneUnmentioned(order: Order, color: Color)
    requires !Mentions(order, color.index)
    ensures Prune(order, color) == order
  {
    if |order| > 0 {
      FlattenAppend([order[0]], order[1..]);
      assert [order[0]] + order[1..] == order;
      assert Flatten([order[0]]) == order[0] + Flatten([order[0]][1..]);
      assert Flatten([order[0]][1..]) == [];
      assert Indices(order[0]) <= Indices(Flatten(order));
      assert Indices(Flatten(order[1..])) <= Indices(Flatten(order));
      PruneUnmentioned(order[1..], color);
    }
  }

  /** Entries never grow, and they strictly shrink when some client mentions the committed index. */
  lemma {:induction false} PruneShrinks(order: Order, color: Color)
    ensures TotalEntries(Prune(order, color)) <= TotalEntries(order)
    ensures Mentions(order, color.index) ==> TotalEntries(Prune(order, color)) < TotalEntries(order)
  {
    if |order| > 0 {
      var head := if Settles(order[0], color) then [] else [RemoveFirst(order[0], color.index)];
      PruneShrinks(order[1..], color);
      assert Prune(order, color) == head + Prune(order[1..], color);
      TotalEntriesAppend(head, Prune(order[1..], color));
      RemoveFirstLength(order[0], color.index);
      assert TotalEntries(head) <= |order[0]|;
      FlattenAppend([order[0]], order[1..]);
      assert [order[0]] + order[1..] == order;
      assert Flatten([order[0]]) == order[0];
      if color.index in Indices(order[0]) {
        assert TotalEntries(head) < |order[0]|;
      }
    }
  }

  lemma {:induction false} TotalEntriesAppend(a: Order, b: Order)
    ensures TotalEntries(a + b) == TotalEntries(a) + TotalEntries(b)
  {
    FlattenAppend(a, b);
  }

  /** Without duplicate indices a row is settled exactly when it holds the committed colour. */
  lemma SettlesIffContains(row: Row, color: Color)
    requires DistinctIndices(row)
    ensures Settles(row, color) <==> color in row
  {
    if color in row {
      var a :| 0 <= a < |row| && row[a] == color;
      var l := LastEntry(row, color.index);
      var j :| 0 <= j < |row| && row[j] == l.value && l.value.index == color.index;
      assert j == a;
    }
  }

  /** Committing an index that no client mentions any more is accepted and changes nothing. */
  lemma CommitUnmentioned(n: nat, order: Order, color: Color)
    requires ValidOrder(n, order) && InRange(n, color)
    requires !Mentions(order, color.index)
    ensures Commit(n, order, color) == Some(order)
  {
    forall i | 0 <= i < |order| && |order[i]| == 1 ensures order[i][0].index != color.index {
      FlattenMembership(order, order[i][0]);
    }
    PruneUnmentioned(order, color);
  }
}

=== FILE: solver.dfy ===
/** The solve loop: run the heuristics to a fixpoint, fill undecided colours with
    Gloss, and keep the assignment only if it satisfies every original client. */
module Solver {
  import opened Wrappers
  import opened Colors
  import opened Orders
  import opened Reducer
  import opened Heuristics

  datatype State = State(order: Order, solution: seq<Color>)

  /** No heuristic can add anything: the loop's `break`. */
  predicate Stalled(n: nat, order: Order, solution: seq<Color>)
    requires ValidOrder(n, order) && ValidColors(n, solution)
  {
    && !AddOrphans(n, order, solution).progress
    && !AddClientEssential(n, order, solution).progress
    && !AddMostFrequentGloss(n, order, solution).progress
  }

  lemma SubsetCardinality(a: set<int>, b: set<int>)
    requires a <= b
    ensures |a| <= |b|
    ensures a < b ==> |a| < |b|
  {
    assert b == a + (b - a);
    if a < b {
      assert b - a != {};
    }
  }

  /** Undecided indices: strictly fewer when the decided set grows inside `1..n`,
      never more when it does not shrink. */
  lemma UndecidedShrinks(n: nat, s: seq<Color>, s': seq<Color>)
    requires ValidColors(n, s') && Indices(s) <= Indices(s')
    ensures |Range(n) - Indices(s')| <= |Range(n) - Indices(s)|
    ensures Indices(s) < Indices(s') ==> |Range(n) - Indices(s')| < |Range(n) - Indices(s)|
  {
    SubsetCardinality(Range(n) - Indices(s'), Range(n) - Indices(s));
    if Indices(s) < Indices(s') {
      assert Indices(s') - Indices(s) != {};
      var k :| k in Indices(s') - Indices(s);
      var e :| e in s' && e.index == k;
      assert InRange(n, e);
      assert k in Range(n) - Indices(s);
    }
  }

  /** One iteration of the `while` body of `solve`: `addOrphans`; if that added nothing,
      `addClientEssential`; if that added nothing, `addMostFrequentGloss`. The first two
      grow the set of decided indices, the third removes entries from the order. */
  function Round(n: nat, order: Order, solution: seq<Color>): (r: Pass)
    requires ValidOrder(n, order) && ValidColors(n, solution)
    ensures ValidOrder(n, r.order) && ValidColors(n, r.solution)
    ensures solution <= r.solution
    ensures r.progress ==> || Indices(solution) < Indices(r.solution)
                           || (Indices(solution) <= Indices(r.solution) && TotalEntries(r.order) < TotalEntries(order))
    ensures !r.progress <==> Stalled(n, order, solution)
    ensures !r.progress ==> r.order == order && r.solution == solution
    ensures |r.order| <= |order|
    ensures TotalEntries(r.order) <= TotalEntries(order)
    ensures NoDuplicates(order) ==> NoDuplicates(r.order)
    ensures HasOrphan(n, order, solution) ==> r == AddOrphans(n, order, solution)
    ensures (!HasOrphan(n, order, solution) && HasEssential(order, solution))
              ==> r == AddClientEssential(n, order, solution)
    ensures (!HasOrphan(n, order, solution) && !HasEssential(order, solution))
              ==> r == AddMostFrequentGloss(n, order, solution)
  {
    OrphansProgress(n, order, solution);
    EssentialsProgress(n, order, solution);
    var p1 := AddOrphans(n, order, solution);
    if p1.progress then p1
    else
      var p2 := AddClientEssential(n, p1.order, p1.solution);
      if p2.progress then p2
      else
        var p3 := AddMostFrequentGloss(n, p2.order, p2.solution);
        p3
  }

  /** The `while (order.size() > 0)` loop of `solve`, ending at an empty order or at a
      round that adds nothing. The pair (undecided indices, entries) decreases
      lexicographically with every round that makes progress. */
  function Reduce(n: nat, order: Order, solution: seq<Color>): (r: State)
    requires ValidOrder(n, order) && ValidColors(n, solution)
    ensures ValidOrder(n, r.order) && ValidColors(n, r.solution)
    ensures solution <= r.solution
    ensures |r.order| <= |order|
    ensures TotalEntries(r.order) <= TotalEntries(order)
    ensures NoDuplicates(order) ==> NoDuplicates(r.order)
    decreases |Range(n) - Indices(solution)|, TotalEntries(order)
  {
    if |order| == 0 then State(order, solution)
    else
      var p := Round(n, order, solution);
      if p.progress then
        UndecidedShrinks(n, solution, p.solution);
        var r := Reduce(n, p.order, p.solution);
        r
      else State(order, solution)
  }

  /** The loop stops only when the order is empty or no heuristic can add anything. */
  lemma {:induction false} ReduceEndsStalled(n: nat, order: Order, solution: seq<Color>)
    requires ValidOrder(n, order) && ValidColors(n, solution)
    ensures var r := Reduce(n, order, solution);
            r.order == [] || Stalled(n, r.order, r.solution)
    decreases |Range(n) - Indices(solution)|, TotalEntries(order)
  {
    if |order| > 0 {
      var p := Round(n, order, solution);
      if p.progress {
        UndecidedShrinks(n, solution, p.solution);
        ReduceEndsStalled(n, p.order, p.solution);
      }
    }
  }

  /** Every committed colour is Gloss or a preference some client of the input states. */
  predicate DrawnFrom(input: Order, s: seq<Color>) {
    forall c :: c in s ==> c.IsGloss() || c in Flatten(input)
  }

  /** A round keeps only entries it was given, and commits only Gloss or one of those entries. */
  lemma RoundDrawsFromOrder(n: nat, order: Order, solution: seq<Color>)
    requires ValidOrder(n, order) && ValidColors(n, solution)
    ensures var r := Round(n, order, solution);
            && (forall e :: e in Flatten(r.order) ==> e in Flatten(order))
            && (forall c :: c in r.solution[|solution|..] ==> c.IsGloss() || c in Flatten(order))
  {
    var r := Round(n, order, solution);
    var p1 := AddOrphans(n, order, solution);
    if p1.progress {
      assert r == p1;
    } else {
      var p2 := AddClientEssential(n, order, solution);
      if p2.progress {
        assert r == p2;
        forall c | c in p2.solution[|solution|..] ensures c in Flatten(order) {
          assert [c] in order;
          FlattenMembership(order, c);
          var i :| 0 <= i < |order| && order[i] == [c];
        }
      } else {
        var p3 := AddMostFrequentGloss(n, order, solution);
        assert r == p3;
        if p3.progress {
          var k :| 1 <= k <= n && p3.solution == solution + [Color(k, G)]
                   && Commit(n, order, Color(k, G)) == Some(p3.order);
          assert p3.solution[|solution|..] == [Color(k, G)];
          PruneEntries(order, Color(k, G));
        }
      }
    }
  }

  /** One round keeps both the remaining entries and the committed colours drawn from the input. */
  lemma RoundKeepsDrawn(n: nat, input: Order, order: Order, solution: seq<Color>)
    requires ValidOrder(n, order) && ValidColors(n, solution)
    requires forall e :: e in Flatten(order) ==> e in Flatten(input)
    requires DrawnFrom(input, solution)
    ensures var p := Round(n, order, solution);
            && (forall e :: e in Flatten(p.order) ==> e in Flatten(input))
            && DrawnFrom(input, p.solution)
  {
    var p := Round(n, order, solution);
    RoundDrawsFromOrder(n, order, solution);
    var tail := p.solution[|solution|..];
    assert p.solution == solution + tail;
    forall c | c in p.solution ensures c.IsGloss() || c in Flatten(input) {
      if c !in solution {
        assert c in tail;
      }
    }
  }

  lemma {:induction false} ReduceDrawsFromInput(n: nat, input: Order, order: Order, solution: seq<Color>)
    requires ValidOrder(n, order) && ValidColors(n, solution)
    requires forall e :: e in Flatten(order) ==> e in Flatten(input)
    requires DrawnFrom(input, solution)
    ensures DrawnFrom(input, Reduce(n, order, solution).solution)
    decreases |Range(n) - Indices(solution)|, TotalEntries(order)
  {
    if |order| > 0 {
      var p := Round(n, order, solution);
      if p.progress {
        UndecidedShrinks(n, solution, p.solution);
        assert Reduce(n, order, solution) == Reduce(n, p.order, p.solution);
        RoundKeepsDrawn(n, input, order, solution);
        ReduceDrawsFromInput(n, input, p.order, p.solution);
      }
    }
  }

  /** The final assignment: `buildGloss(i)` for every index, then each committed colour
      written over its slot in commit order, so the last commit of an index wins. */
  function Assemble(n: nat, solution: seq<Color>): (r: seq<Color>)
    requires ValidColors(n, solution)
    ensures |r| == n
    ensures forall i :: 0 <= i < n ==> r[i] == LastEntry(solution, i + 1).GetOr(BuildGloss(i + 1))
  {
    if |solution| == 0 then seq(n, i => BuildGloss(i + 1))
    else
      var last := solution[|solution| - 1];
      assert last in solution;
      assert forall e :: e in solution[..|solution| - 1] ==> e in solution;
      Assemble(n, solution[..|solution| - 1])[last.index - 1 := last]
  }

  /** `isASolution`: every client has a preference that appears in the assignment. */
  function IsASolution(order: Order, assignment: seq<Color>): (b: bool)
    ensures (forall i :: 0 <= i < |assignment| ==> assignment[i].index == i + 1) && ValidOrder(|assignment|, order) ==>
              (b <==> forall row :: row in order ==> exists c :: c in row && assignment[c.index - 1] == c)
  {
    FullAssignmentLookup(assignment);
    forall row :: row in order ==> exists c :: c in row && c in assignment
  }

  /** In a full assignment (slot `i` holds index `i + 1`) a colour of an index in range
      occurs exactly when it is what the slot of its index holds. */
  lemma FullAssignmentLookup(assignment: seq<Color>)
    ensures (forall i :: 0 <= i < |assignment| ==> assignment[i].index == i + 1) ==>
              forall c: Color :: 1 <= c.index <= |assignment| ==> (c in assignment <==> assignment[c.index - 1] == c)
  {
    if forall i :: 0 <= i < |assignment| ==> assignment[i].index == i + 1 {
      forall c: Color | 1 <= c.index <= |assignment| && c in assignment
        ensures assignment[c.index - 1] == c
      {
        var i :| 0 <= i < |assignment| && assignment[i] == c;
      }
    }
  }

  /** `solve`. The input is a value, so the working copy the source clones is implicit and the
      input is never changed. */
  function Solve(n: nat, input: Order): (r: seq<Color>)
    requires ValidOrder(n, input)
    ensures r == [] || |r| == n
    ensures forall i :: 0 <= i < |r| ==> r[i].index == i + 1
    ensures r != [] ==> IsASolution(input, r)
    ensures var a := Assemble(n, Reduce(n, input, []).solution);
            IsASolution(input, a) ==> r == a
  {
    var final := Reduce(n, input, []);
    var result := Assemble(n, final.solution);
    if IsASolution(input, result) then result else []
  }

  // ---------------------------------------------------------------------
  // Properties of the result

  /** A non-empty result holds, for each index, the finish the loop committed last, and
      Gloss where it committed none. */
  lemma SolveTakesLastCommit(n: nat, input: Order)
    requires ValidOrder(n, input)
    ensures Solve(n, input) != [] ==>
              forall i :: 0 <= i < n ==>
                Solve(n, input)[i] == LastEntry(Reduce(n, input, []).solution, i + 1).GetOr(BuildGloss(i + 1))
  {
  }

  /** A colour no client mentions comes out Gloss. */
  lemma UnmentionedColourIsGloss(n: nat, input: Order, k: int)
    requires ValidOrder(n, input) && 1 <= k <= n
    requires !Mentions(input, k)
    ensures Solve(n, input) != [] ==> Solve(n, input)[k - 1] == Color(k, G)
  {
    var final := Reduce(n, input, []);
    ReduceDrawsFromInput(n, input, input, []);
    var last := LastEntry(final.solution, k);
    if last.Some? {
      assert last.value in final.solution;
      assert last.value !in Flatten(input) by {
        assert k in Indices(Flatten(input)) <== last.value in Flatten(input);
      }
    }
  }

  /** Two one-preference clients that want the same colour with different finishes
      make every result empty ("No solution exists"). */
  lemma ContradictorySingletons(n: nat, input: Order, k: int)
    requires ValidOrder(n, input)
    requires [Color(k, M)] in input && [Color(k, G)] in input
    ensures Solve(n, input) == []
  {
    SingletonsClash(input, Solve(n, input), k);
  }

  /** No assignment with one slot per index satisfies both `[(k, M)]` and `[(k, G)]`. */
  lemma SingletonsClash(input: Order, r: seq<Color>, k: int)
    requires [Color(k, M)] in input && [Color(k, G)] in input
    requires forall i :: 0 <= i < |r| ==> r[i].index == i + 1
    ensures !IsASolution(input, r)
  {
    if IsASolution(input, r) {
      SatisfiedSingleton(input, r, Color(k, M));
      SatisfiedSingleton(input, r, Color(k, G));
    }
  }

  /** A one-preference client is satisfied only by that very preference, and in a full
      assignment it sits in the slot of its index. */
  lemma SatisfiedSingleton(input: Order, r: seq<Color>, c: Color)
    requires IsASolution(input, r) && [c] in input
    requires forall i :: 0 <= i < |r| ==> r[i].index == i + 1
    ensures 1 <= c.index <= |r| && r[c.index - 1] == c
  {
    var x :| x in [c] && x in r;
    var i :| 0 <= i < |r| && r[i] == x;
  }

  /** The instance `1 / 1 M / 1 G` has no solution. */
  lemma OneColourBothFinishes()
    ensures Solve(1, [[Color(1, M)], [Color(1, G)]]) == []
  {
    ContradictorySingletons(1, [[Color(1, M)], [Color(1, G)]], 1);
  }

  /** A client with no preferences at all can never be satisfied. */
  lemma EmptyClientUnsatisfiable(n: nat, input: Order)
    requires ValidOrder(n, input) && [] in input
    ensures Solve(n, input) == []
  {
    EmptyRowUnsatisfiable(input, Solve(n, input));
  }

  /** No assignment satisfies an order that holds an empty client. */
  lemma EmptyRowUnsatisfiable(order: Order, assignment: seq<Color>)
    requires [] in order
    ensures !IsASolution(order, assignment)
  {
    var empty: Row := [];
    assert !exists c :: c in empty && c in assignment;
  }

  /** With no clients at all, every colour comes out Gloss. */
  lemma NoClientsAllGloss(n: nat)
    ensures Solve(n, []) == seq(n, i => Color(i + 1, G))
  {
  }

  /** A single client asking for `(1, M)` gets it: the essential-client pass commits it. */
  lemma SingleMatteClient()
    ensures Solve(1, [[Color(1, M)]]) == [Color(1, M)]
  {
    SingleMatteReduce();
    SingleMatteAssemble();
    SingleMatteSatisfied();
  }

  lemma SingleMatteSatisfied()
    ensures IsASolution([[Color(1, M)]], [Color(1, M)])
  {
    var c := Color(1, M);
    assert forall row :: row in [[c]] ==> row == [c];
    assert c in [c];
  }

  lemma SingleMatteReduce()
    ensures Reduce(1, [[Color(1, M)]], []).solution == [Color(1, M)]
  {
    SingleMatteRound();
    assert Reduce(1, [], [Color(1, M)]) == State([], [Color(1, M)]);
  }

  lemma SingleMatteAssemble()
    ensures Assemble(1, [Color(1, M)]) == [Color(1, M)]
  {
    var c := Color(1, M);
    assert [c][..0] == [];
    var a := Assemble(1, [c]);
    assert |a| == 1 && a[0] == LastEntry([c], 1).GetOr(BuildGloss(1));
  }

  lemma SingleMatteRound()
    ensures Round(1, [[Color(1, M)]], []) == Pass([], [Color(1, M)], true)
  {
    var c := Color(1, M);
    SingleMatteNoOrphan();
    SingleMatteEssential();
  }

  lemma SingleMatteNoOrphan()
    ensures !AddOrphans(1, [[Color(1, M)]], []).progress
  {
    var c := Color(1, M);
    var order: Order := [[c]];
    assert Flatten(order) == [c];
    assert !IsOrphan(order, [], 1);
  }

  lemma SingleMatteEssential()
    ensures AddClientEssential(1, [[Color(1, M)]], []) == Pass([], [Color(1, M)], true)
  {
    var c := Color(1, M);
    var order: Order := [[c]];
    EssentialsOfOne([c], []);
    assert Settles([c], c);
    assert Prune(order, c) == [];
    assert CommitAll(1, order, [c]) == [];
  }

  /** An empty result does not mean that no assignment exists: the one client
      `[(1, M), (2, M)]` over two colours has no orphan, no essential preference and no Gloss
      entry, so the loop stops at once, the all-Gloss assignment fails validation and the
      result is empty, although `[(1, M), (2, G)]` satisfies the client. */
  lemma GreedyMissesSolution()
    ensures Solve(2, [[Color(1, M), Color(2, M)]]) == []
    ensures IsASolution([[Color(1, M), Color(2, M)]], [Color(1, M), Color(2, G)])
  {
    TwoMatteReduce();
    TwoMatteAllGlossRejected();
    TwoMatteSatisfied();
  }

  lemma TwoMatteReduce()
    ensures Reduce(2, [[Color(1, M), Color(2, M)]], []).solution == []
  {
    TwoMatteStalled();
  }

  lemma TwoMatteStalled()
    ensures !Round(2, [[Color(1, M), Color(2, M)]], []).progress
  {
    TwoMatteNoOrphan();
    TwoMatteNoEssential();
    TwoMatteNoGloss();
  }

  lemma TwoMatteNoOrphan()
    ensures !AddOrphans(2, [[Color(1, M), Color(2, M)]], []).progress
  {
    var order: Order := [[Color(1, M), Color(2, M)]];
    var flat := Flatten(order);
    assert flat == [Color(1, M), Color(2, M)];
    forall k | 1 <= k <= 2 ensures !IsOrphan(order, [], k) {
      assert Color(k, M) in flat;
      assert k in Indices(flat);
      assert Color(k, G) !in flat;
    }
    OrphansProgress(2, order, []);
  }

  lemma TwoMatteNoEssential()
    ensures !AddClientEssential(2, [[Color(1, M), Color(2, M)]], []).progress
  {
  }

  lemma TwoMatteNoGloss()
    ensures !AddMostFrequentGloss(2, [[Color(1, M), Color(2, M)]], []).progress
  {
    var order: Order := [[Color(1, M), Color(2, M)]];
    assert Flatten(order) == [Color(1, M), Color(2, M)];
    assert GlossCount(order, 1) == 0 && GlossCount(order, 2) == 0;
  }

  lemma TwoMatteAllGlossRejected()
    ensures Assemble(2, []) == [Color(1, G), Color(2, G)]
    ensures !IsASolution([[Color(1, M), Color(2, M)]], [Color(1, G), Color(2, G)])
  {
    var order: Order := [[Color(1, M), Color(2, M)]];
    var a := [Color(1, G), Color(2, G)];
    assert Assemble(2, []) == a;
    assert order[0] in order;
    assert !exists c :: c in order[0] && c in a;
  }

  lemma TwoMatteSatisfied()
    ensures IsASolution([[Color(1, M), Color(2, M)]], [Color(1, M), Color(2, G)])
  {
    var c := Color(1, M);
    var order: Order := [[c, Color(2, M)]];
    assert forall row :: row in order ==> row == [c, Color(2, M)];
    assert c in [c, Color(2, M)] && c in [c, Color(2, G)];
  }
}

=== FILE: wrappers.dfy ===
/** Failure-carrying wrappers used across the model: `Option` stands for a
    Java reference that may be null, `Result` for a call that may throw. */
module Wrappers {

  datatype Option<+T> = None | Some(value: T) {

    /** The wrapped value, or `default` when there is none. */
    function GetOr(default: T): T {
      match this
      case Some(v) => v
      case None => default
    }
  }

  datatype Result<+T, +E> = Success(value: T) | Failure(error: E)
}
